=== FILE: README.md ===
# Print-queue monitor: job table, polling tick and console render

This project models the core of a small Windows console utility. The utility
watches the local print queues. For every job seen since the spool directory
was last empty, it keeps printing the document name, the owning printer, one
more than the pages printed so far, and the copy count. Jobs are never removed
one at a time: the whole table is dropped only when the spool directory is
empty, and the last listing then stays on screen. All the logic sits in
`Program.cs`:

- **`Document`.** A record of one job. Its `NumberOfPages` setter only ever
  raises the stored value, and the constructor assigns the observed page count
  through that setter onto a field that starts at 0.
- **`dictOfDocs`.** The job state table, keyed by job id.
- **`UpdateData`.** For each queue whose job count is not 0, it upserts every
  reported job and then re-renders the whole table.
- **The loop body of `BackgroundWorker1_DoWork`.** It runs `UpdateData` while
  the spool directory holds files. Otherwise it clears the table.
- **`PrintData` / `WriteProperties`.** They clear the console and write three
  lines per document.

The Dafny modules follow that structure:

| file | module | models |
|---|---|---|
| `decimal.dfy` | `Decimal` | how an `int` is spelled when concatenated into a line, plus its parser |
| `document.dfy` | `Documents` | `Document`, the clamping setter, the constructor, `WriteProperties` |
| `job_table.dfy` | `JobTable` | the table, the upsert of one job, the merge of one queue's jobs, `Clear` |
| `monitor.dfy` | `Monitor` | `UpdateData`, one iteration of the polling loop, a finite run of iterations |
| `console.dfy` | `Console` | `PrintData` and what the console shows after an iteration |
| `scenarios.dfy` | `Scenarios` | small concrete runs |

The print service is replaced by a `Snapshot` value. It holds the number of
files in the spool directory and, for each local queue in enumeration order:

- the queue name;
- the default copy count;
- `NumberOfJobs`;
- the job list, as (id, name, pages printed) entries.

`NumberOfJobs` and the job list are two separate reads in the program, so the
model does not force them to agree. A queue that reports a non-zero count but
no jobs still triggers a render.

One iteration is the pure function `Tick(table, snapshot)`. It returns the new
table and the list of tables that `PrintData` showed, in call order. The
dictionary's enumeration order is not specified, so `PrintData` takes it as an
input: any list that names each id of the table exactly once. No particular
order is assumed.

A new document stores `max(0, observed)` pages, not the observed count as
such. The backing field starts at 0 (Program.cs:131), and the constructor
assigns through the clamping setter (Program.cs:137, 142).
`NegativeFirstReport` shows it.

## Model

| member | source | states |
|---|---|---|
| Documents.SetPages | Program.cs:132-138 | the new page count is the larger of the stored and the assigned value, never below either; name, printer and copy count are untouched |
| Documents.SetPagesTwice | Program.cs:137 | assigning two values in turn is the same as assigning the larger one |
| Documents.SetPagesStale | Program.cs:137 | assigning a value not above the stored count leaves the document unchanged |
| Documents.NewDocument | Program.cs:131-146 | a new document holds the given name, printer and copies, and max(0, observed) pages, so its page count is never negative |
| Documents.DocumentLinesReadBack | Program.cs:149-154 | a document writes three lines: "Printer: " and the printer, then a line whose two figures read back as pages+1 and the copy count, then a blank line |
| Documents.ShownPagesPositive | Program.cs:152 | a stored page count is never negative, so the figure shown is a digit string other than "0" |
| Decimal.NatToString | Program.cs:152 | a natural number is spelled with digits only, at least one, and no leading zero |
| Decimal.IntToString | Program.cs:152 | an integer is spelled as an optional minus sign and digits, with no tab, so the tab-separated fields stay separate |
| Decimal.NatToStringRoundTrip | Program.cs:152 | the decimal value of a natural number's spelling is that number |
| Decimal.IntToStringRoundTrip | Program.cs:152 | parsing an integer's spelling gives back the integer |
| Decimal.IntToStringInjective | Program.cs:152 | different integers have different spellings |
| JobTable.Upsert | Program.cs:92-102 | for a known id, only that entry's pages change, to the max of stored and observed; for an unknown id, exactly one key is added, holding the job's name, the queue's name, the queue's default copy count and max(0, observed) pages; every other entry is unchanged |
| JobTable.MergeJobs | Program.cs:90-103 | merging one queue's jobs adds exactly the reported ids; no key is removed; no identity field changes; no page count drops; unreported entries stay as they were |
| JobTable.MergeJobsSpec | Program.cs:90-103 | each resulting page count is at least every observation of its id; a new entry's count is also at least 0; and each count is the previous count (0 for a new entry) or one of those observations. So a known entry ends at the maximum of its previous count and the observations, and a new entry at the maximum of 0 and the observations, whatever the starting table holds. A new entry takes its name from the first report of its id, and its printer and copies from the queue |
| JobTable.MergeJobsIdempotent | Program.cs:90-103 | merging the same report a second time changes nothing |
| JobTable.Clear | Program.cs:62 | clearing leaves no entries |
| Monitor.ActiveQueuesExact | Program.cs:79-84 | the queues `UpdateData` processes are exactly those in the input with a job count other than 0: each kept queue is one of them, and none of them is dropped |
| Monitor.UpdateData | Program.cs:71-109 | one render per queue whose job count is not 0; with no such queue the table is returned unchanged |
| Monitor.UpdateDataKeys | Program.cs:79-103 | the resulting keys are the old keys plus exactly the ids reported by the queues with a non-zero job count |
| Monitor.UpdateDataGrows | Program.cs:79-103 | no key is removed, no identity field changes and no page count drops; page counts stay non-negative |
| Monitor.UpdateDataLastFrame | Program.cs:104-107 | the last render shows the table `UpdateData` returns |
| Monitor.UpdateDataFramesGrow | Program.cs:79-107 | each render's table extends the previous render's table, and the first extends the starting table |
| Monitor.UpdateDataAppend | Program.cs:79-108 | processing the queues in two batches equals processing them at once: the second batch starts from the first batch's table, and the renders concatenate |
| Monitor.IdleQueueIgnored | Program.cs:84-107 | a queue with a job count of 0 changes no entry and causes no render, wherever it stands |
| Monitor.Tick | Program.cs:48-63 | with an empty spool directory the table ends empty and nothing renders; otherwise one render per queue with jobs, the last showing the final table |
| Monitor.TickGrows | Program.cs:54-58 | a busy iteration adds exactly the reported ids and never removes a key, changes identity fields or lowers pages |
| Monitor.IdleClears | Program.cs:54-63 | an idle iteration empties any table; repeating it on the emptied table is a no-op |
| Monitor.Run | Program.cs:46-67 | page counts stay non-negative over any number of iterations; a run whose last iteration is idle ends with an empty table |
| Monitor.RunAppend | Program.cs:46-67 | running two sequences of iterations in turn equals running their concatenation |
| Monitor.RunBusyExtends | Program.cs:46-67 | while every iteration finds spool files, the table only grows |
| Monitor.SessionMonotonic | Program.cs:46-67 | after any prefix of iterations, further busy iterations never drop a job, change its identity or lower its pages, whatever is reported |
| Console.Blocks | Program.cs:116-120 | the documents listed in enumeration order write 3 lines each, the i-th block being the i-th document's lines |
| Console.PrintData | Program.cs:112-121 | the console holds 3 lines per table entry; the i-th block is the block of the i-th enumerated entry, so each entry is written exactly once; every entry's block appears, and every block belongs to an entry |
| Console.EnumerationLength | Program.cs:117 | an enumeration naming each id once has one element per table entry |
| Console.ConsoleAfter | Program.cs:114 | with no render the console is left as it was; otherwise it holds 3 lines per entry of the last table rendered |
| Console.ConsoleReset | Program.cs:114 | a render discards whatever the console held before |
| Console.TickConsole | Program.cs:54-63 | an idle iteration, or one with no queue reporting jobs, writes nothing; any other iteration leaves exactly the final table's rendering |
| Scenarios.FirstSighting | Program.cs:98-102 | job 1 ("Report.pdf", 0 pages) on queue "HP-LaserJet" with 3 copies becomes the only entry, with 0 pages and 3 copies |
| Scenarios.FirstSightingShown | Program.cs:152 | that entry's second line reads "Name: Report.pdf\tNumber of Pages: 1\tCopies: 3" |
| Scenarios.ProgressThenStaleReport | Program.cs:93-97 | a report of 5 pages raises the count to 5, and a later report of 2 leaves the table unchanged |
| Scenarios.NegativeFirstReport | Program.cs:140-142 | a first report of -4 pages is stored as 0 |
| Scenarios.IdleSpoolClears | Program.cs:54-63 | a table with two entries is emptied by an idle iteration, with no render |
| Scenarios.TwoQueuesRenderProgressively | Program.cs:79-107 | with two queues of one job each, the first render shows only the first job and the second shows both |

## Left out

- The print service and file system calls are not modelled. These are `LocalPrintServer`, `Refresh`, `GetPrintQueues`, `GetPrintJobInfoCollection`, `DefaultPrintTicket` and `Directory.GetFiles`. Their results are inputs, carried in `Snapshot`.
- Exceptions are not modelled. These come from the print-service calls and from the `(int)` cast of a missing default copy count. The loop runs as the `DoWork` handler of a `BackgroundWorker` (Program.cs:32-34, 41). The worker catches an exception from `DoWork` and hands it to `RunWorkerCompleted`, and nothing subscribes to that event. So an exception ends the polling loop silently: the table freezes, the last render stays on screen, and `Main` keeps waiting in `Console.ReadKey` (Program.cs:37). The model has no such terminal state.
- `Console.Clear` (Program.cs:114) throws when console output is redirected. That ends the loop at the first render, in the same silent way. The model treats the console as always writable.
- `BackgroundWorker`, `Console.ReadKey` and `Thread.Sleep(SLEEP_TIME)` (1 ms) are left out. They are threading and process lifecycle, not logic.
- The endless `while (true)` is modelled as one `Tick` or a finite `Run` of ticks.
- Console side effects are not performed. `Console.Clear` and `WriteLine` become a returned list of lines, the one `PrintData` computes.
- The dictionary's enumeration order is an input to `PrintData`, not a modelled order.
- Documents.DocumentLinesReadBack: does not model 32-bit overflow of `NumberOfPages + 1` (the figure for `int.MaxValue` would wrap). Integers here are unbounded.
- Documents.ShownPagesPositive: does not model 32-bit overflow either. At `pages == int.MaxValue` the program shows "-2147483648", not a positive figure. Integers here are unbounded.
- Decimal.IntToString: uses "-" as the minus sign. The program formats with the current culture's sign, which only matters for negative copy counts.

=== FILE: console.dfy ===
/**
 `PrintData`: the console is cleared, then every document in the table writes
 its three-line block. The table is a dictionary whose enumeration order is
 not specified, so the order is an input here: any listing of the table's ids
 that names each id exactly once.
 */
module Console {

  import opened Documents
  import opened JobTable
  import opened Monitor

  /** `order` lists every id of `t` exactly once. */
  ghost predicate IsEnumeration(order: seq<int>, t: Table) {
    && (forall i :: 0 <= i < |order| ==> order[i] in t)
    && (forall k :: k in t ==> k in order)
    && (forall i, j :: 0 <= i < j < |order| ==> order[i] != order[j])
  }

  /** The `i`-th three-line block of a console listing. */
  function Block(lines: seq<string>, i: nat): seq<string>
    requires 3 * i + 3 <= |lines|
  {
    lines[3 * i..3 * i + 3]
  }

  /** The blocks of the documents named by `order`, one after the other. */
  function Blocks(t: Table, order: seq<int>): (lines: seq<string>)
    requires forall i :: 0 <= i < |order| ==> order[i] in t
    ensures |lines| == 3 * |order|
    ensures forall i :: 0 <= i < |order| ==> Block(lines, i) == DocumentLines(t[order[i]])
    decreases |order|
  {
    if |order| == 0 then []
    else
      var rest := Blocks(t, order[1..]);
      var first := DocumentLines(t[order[0]]);
      BlocksShift(first, rest);
      first + rest
  }

  lemma BlocksShift(first: seq<string>, rest: seq<string>)
    requires |first| == 3
    ensures Block(first + rest, 0) == first
    ensures forall i :: 0 < i && 3 * i + 3 <= |first + rest| ==> Block(first + rest, i) == Block(rest, i - 1)
  {
    var lines := first + rest;
    assert lines[..3] == first;
    forall i | 0 < i && 3 * i + 3 <= |lines|
      ensures Block(lines, i) == Block(rest, i - 1)
    {
      assert lines[3 * i..3 * i + 3] == rest[3 * (i - 1)..3 * (i - 1) + 3];
    }
  }

  /** `PrintData`: the whole console after the clear and the writes. The
      `i`-th block is the block of the `i`-th enumerated entry, so each entry
      is written exactly once; every entry's block appears, and every block
      is the block of an entry of the table. */
  function PrintData(t: Table, order: seq<int>): (lines: seq<string>)
    requires IsEnumeration(order, t)
    ensures |lines| == 3 * |t| == 3 * |order|
    ensures forall i :: 0 <= i < |order| ==> Block(lines, i) == DocumentLines(t[order[i]])
    ensures forall k :: k in t ==> exists i :: 0 <= i < |t| && Block(lines, i) == DocumentLines(t[k])
    ensures forall i :: 0 <= i < |t| ==> exists k :: k in t && Block(lines, i) == DocumentLines(t[k])
  {
    EnumerationLength(order, t);
    var lines := Blocks(t, order);
    assert forall k :: k in t ==> exists i :: 0 <= i < |order| && order[i] == k;
    lines
  }

  /** A duplicate-free listing has as many elements as the set it lists. */
  lemma {:induction false} DistinctCardinality(s: seq<int>)
    requires forall i, j :: 0 <= i < j < |s| ==> s[i] != s[j]
    ensures |set x | x in s| == |s|
    decreases |s|
  {
    if |s| > 0 {
      var rest := s[1..];
      DistinctCardinality(rest);
      assert (set x | x in s) == {s[0]} + (set x | x in rest);
      assert s[0] !in rest;
    }
  }

  lemma EnumerationLength(order: seq<int>, t: Table)
    requires IsEnumeration(order, t)
    ensures |order| == |t|
  {
    DistinctCardinality(order);
    var listed := set x | x in order;
    forall x
      ensures x in listed <==> x in t.Keys
    {
      if x in order {
        var i :| 0 <= i < |order| && order[i] == x;
      }
    }
    assert listed == t.Keys;
  }

  /** The console after a run of renders: unchanged when nothing rendered,
      otherwise what the last render wrote, each render having cleared what
      came before. `order` is the enumeration order of the last render. */
  function ConsoleAfter(prev: seq<string>, frames: seq<Table>, order: seq<int>): (lines: seq<string>)
    requires |frames| > 0 ==> IsEnumeration(order, frames[|frames| - 1])
    ensures |frames| == 0 ==> lines == prev
    ensures |frames| > 0 ==> |lines| == 3 * |frames[|frames| - 1]|
  {
    if |frames| == 0 then prev
    else PrintData(frames[|frames| - 1], order)
  }

  /** A render replaces the console: what was there before leaves no trace. */
  lemma ConsoleReset(p1: seq<string>, p2: seq<string>, frames: seq<Table>, order: seq<int>)
    requires |frames| > 0
    requires IsEnumeration(order, frames[|frames| - 1])
    ensures ConsoleAfter(p1, frames, order) == ConsoleAfter(p2, frames, order)
  {
  }

  /** What an iteration leaves on the console: an idle iteration, or a busy
      one where every queue reports a job count of 0, writes nothing; any
      other busy iteration leaves the full table, one block per tracked
      document. */
  lemma TickConsole(t: Table, s: Snapshot, prev: seq<string>, order: seq<int>)
    requires IsEnumeration(order, Tick(t, s).table)
    ensures s.spoolFileCount == 0 || |ActiveQueues(s.queues)| == 0 ==> ConsoleAfter(prev, Tick(t, s).frames, order) == prev
    ensures s.spoolFileCount > 0 && |ActiveQueues(s.queues)| > 0 ==>
              ConsoleAfter(prev, Tick(t, s).frames, order) == PrintData(Tick(t, s).table, order)
  {
  }
}

=== FILE: decimal.dfy ===
/**
 Decimal rendering of integers, as used when the monitor concatenates a page
 count or a copy count into a console line, together with the parser that
 inverts it.
 */
module Decimal {

  datatype Option<+T> = None | Some(value: T)

  predicate IsDigit(c: char) {
    '0' <= c <= '9'
  }

  predicate AllDigits(s: string) {
    forall i :: 0 <= i < |s| ==> IsDigit(s[i])
  }

  function DigitChar(d: nat): (c: char)
    requires d < 10
    ensures IsDigit(c)
    ensures (c as int) - ('0' as int) == d
  {
    ('0' as int + d) as char
  }

  function DigitValue(c: char): (d: nat)
    requires IsDigit(c)
    ensures d < 10
    ensures DigitChar(d) == c
  {
    (c as int) - ('0' as int)
  }

  /** The shortest decimal spelling of a natural number: digits only, and no
      leading zero unless the number is zero itself. */
  function NatToString(n: nat): (s: string)
    ensures |s| >= 1
    ensures AllDigits(s)
    ensures |s| > 1 ==> s[0] != '0'
    ensures n < 10 <==> |s| == 1
    decreases n
  {
    if n < 10 then [DigitChar(n)] else NatToString(n / 10) + [DigitChar(n % 10)]
  }

  /** Value of a string of decimal digits, most significant digit first. */
  function DigitsValue(s: string): nat
    requires AllDigits(s)
  {
    if |s| == 0 then 0 else DigitsValue(s[..|s| - 1]) * 10 + DigitValue(s[|s| - 1])
  }

  /** Integer to string as `Int32.ToString()` spells it: an optional minus sign
      followed by the shortest decimal spelling of the magnitude. */
  function IntToString(i: int): (s: string)
    ensures |s| >= 1
    ensures i >= 0 <==> IsDigit(s[0])
    ensures i < 0 ==> s[0] == '-' && AllDigits(s[1..])
    ensures i >= 0 ==> AllDigits(s)
    ensures forall k :: 0 <= k < |s| ==> s[k] != '\t'
  {
    if i < 0 then "-" + NatToString(-i) else NatToString(i)
  }

  /** Reads back what `IntToString` writes; anything else is `None`. */
  function ParseInt(s: string): (r: Option<int>)
    ensures r.Some? ==> |s| >= 1
    ensures r.Some? && IsDigit(s[0]) ==> r.value >= 0
  {
    if |s| >= 1 && AllDigits(s) then Some(DigitsValue(s) as int)
    else if |s| >= 2 && s[0] == '-' && AllDigits(s[1..]) then Some(0 - DigitsValue(s[1..]) as int)
    else None
  }

  lemma {:induction false} NatToStringRoundTrip(n: nat)
    ensures DigitsValue(NatToString(n)) == n
    decreases n
  {
    var s := NatToString(n);
    if n < 10 {
      assert s == [DigitChar(n)];
      assert s[..0] == [];
    } else {
      NatToStringRoundTrip(n / 10);
      var p := NatToString(n / 10);
      assert s == p + [DigitChar(n % 10)];
      assert s[..|s| - 1] == p;
      assert DigitValue(s[|s| - 1]) == n % 10;
    }
  }

  lemma DropHead<T>(c: T, s: seq<T>)
    ensures ([c] + s)[1..] == s
  {
  }

  /** Every integer survives a trip through its decimal spelling. */
  lemma IntToStringRoundTrip(i: int)
    ensures ParseInt(IntToString(i)) == Some(i)
  {
    if i < 0 {
      var m := NatToString(-i);
      DropHead('-', m);
      NatToStringRoundTrip(-i);
    } else {
      NatToStringRoundTrip(i);
    }
  }

  /** Distinct integers are spelled differently. */
  lemma IntToStringInjective(i: int, j: int)
    requires IntToString(i) == IntToString(j)
    ensures i == j
  {
    IntToStringRoundTrip(i);
    IntToStringRoundTrip(j);
  }
}

=== FILE: document.dfy ===
/**
 One tracked print document: the name it was submitted under, the queue that
 owns it, the pages printed so far and the copy count taken from the queue's
 default ticket. The page count only ever rises.
 */
module Documents {

  import opened Decimal

  datatype Document = Document(name: string, printerName: string, pages: int, copyCount: int)

  /** `m` is the larger of `a` and `b`, stated without computing it. */
  predicate IsMaxOf(m: int, a: int, b: int) {
    m >= a && m >= b && (m == a || m == b)
  }

  /** Identity fields (everything but the page count) agree. */
  predicate SameIdentity(d: Document, e: Document) {
    d.name == e.name && d.printerName == e.printerName && d.copyCount == e.copyCount
  }

  /** The invariant every stored document keeps: the page field starts at 0
      and is only ever raised, so it is never negative. */
  predicate Valid(d: Document) {
    d.pages >= 0
  }

  /** The `NumberOfPages` setter: the stored value changes only when the new
      value is larger. */
  function SetPages(d: Document, value: int): (r: Document)
    ensures IsMaxOf(r.pages, d.pages, value)
    ensures SameIdentity(r, d)
    ensures Valid(d) ==> Valid(r)
  {
    if d.pages >= value then d else d.(pages := value)
  }

  /** The constructor: the page field starts at 0 and the observed count is
      assigned through the clamping setter. */
  function NewDocument(name: string, printerName: string, observed: int, copies: int): (r: Document)
    ensures r.name == name && r.printerName == printerName && r.copyCount == copies
    ensures IsMaxOf(r.pages, 0, observed)
    ensures Valid(r)
  {
    SetPages(Document(name, printerName, 0, copies), observed)
  }

  /** `WriteProperties`: the three console lines of one document, the page
      figure shown one higher than the stored count. */
  function DocumentLines(d: Document): (lines: seq<string>)
  {
    [ "Printer: " + d.printerName,
      "Name: " + d.name + "\tNumber of Pages: " + IntToString(d.pages + 1) + "\tCopies: " + IntToString(d.copyCount),
      "" ]
  }

  /** Setting pages twice is setting the larger value once. */
  lemma SetPagesTwice(d: Document, a: int, b: int)
    ensures SetPages(SetPages(d, a), b) == SetPages(d, if a >= b then a else b)
  {
  }

  /** A smaller (stale) observation leaves the document as it is. */
  lemma SetPagesStale(d: Document, value: int)
    requires value <= d.pages
    ensures SetPages(d, value) == d
  {
  }

  /** The rendered block of a document is three lines, the first naming its
      printer, the last blank, and the second carrying decimal figures that
      read back as the stored page count plus one and the copy count. */
  lemma DocumentLinesReadBack(d: Document)
    ensures |DocumentLines(d)| == 3
    ensures DocumentLines(d)[0][..9] == "Printer: " && DocumentLines(d)[0][9..] == d.printerName
    ensures DocumentLines(d)[2] == ""
    ensures exists p, c :: DocumentLines(d)[1] == "Name: " + d.name + "\tNumber of Pages: " + p + "\tCopies: " + c
                           && ParseInt(p) == Some(d.pages + 1) && ParseInt(c) == Some(d.copyCount)
  {
    var p := IntToString(d.pages + 1);
    var c := IntToString(d.copyCount);
    IntToStringRoundTrip(d.pages + 1);
    IntToStringRoundTrip(d.copyCount);
    assert DocumentLines(d)[1] == "Name: " + d.name + "\tNumber of Pages: " + p + "\tCopies: " + c;
  }

  /** A valid document always shows a page figure of at least one. */
  lemma ShownPagesPositive(d: Document)
    requires Valid(d)
    ensures IsDigit(IntToString(d.pages + 1)[0])
    ensures IntToString(d.pages + 1) != "0"
  {
    IntToStringRoundTrip(d.pages + 1);
  }
}

=== FILE: job_table.dfy ===
/**
 The job state table (`dictOfDocs`): job id to document. Entries are created
 on first sight of an id, afterwards only their page count is merged upward,
 and the only removal is the bulk clear.
 */
module JobTable {

  import opened Documents

  type Table = map<int, Document>

  /** One job as the print service reports it. */
  datatype JobInfo = JobInfo(id: int, name: string, pagesPrinted: int)

  /** One printer queue as the print service reports it. `jobCount` and `jobs`
      come from two separate reads (`NumberOfJobs` and the job collection),
      so nothing forces them to agree. */
  datatype Queue = Queue(name: string, defaultCopies: int, jobCount: int, jobs: seq<JobInfo>)

  predicate ValidTable(t: Table) {
    forall k {:trigger t[k]} :: k in t ==> Valid(t[k])
  }

  function JobIds(jobs: seq<JobInfo>): set<int> {
    set j | j in jobs :: j.id
  }

  /** `i` is the first position in `jobs` that reports job `k`. */
  ghost predicate FirstOccurrence(jobs: seq<JobInfo>, i: int, k: int) {
    0 <= i < |jobs| && jobs[i].id == k && forall j :: 0 <= j < i ==> jobs[j].id != k
  }

  /** `u` extends `t`: no key lost, no identity field changed, no page count
      lowered. */
  ghost predicate Extends(t: Table, u: Table) {
    t.Keys <= u.Keys && forall k {:trigger t[k]} :: k in t ==> SameIdentity(u[k], t[k]) && u[k].pages >= t[k].pages
  }

  /** One step of the inner loop of `UpdateData`: merge the pages of a known
      job, or add a new document for an unknown one. */
  function Upsert(t: Table, q: Queue, job: JobInfo): (r: Table)
    ensures r.Keys == t.Keys + {job.id}
    ensures |r| == if job.id in t then |t| else |t| + 1
    ensures forall k {:trigger r[k]} :: k in t && k != job.id ==> r[k] == t[k]
    ensures job.id in t ==> SameIdentity(r[job.id], t[job.id])
                            && IsMaxOf(r[job.id].pages, t[job.id].pages, job.pagesPrinted)
    ensures job.id !in t ==> r[job.id].name == job.name
                             && r[job.id].printerName == q.name
                             && r[job.id].copyCount == q.defaultCopies
                             && IsMaxOf(r[job.id].pages, 0, job.pagesPrinted)
    ensures ValidTable(t) ==> ValidTable(r)
  {
    if job.id in t then t[job.id := SetPages(t[job.id], job.pagesPrinted)]
    else t[job.id := NewDocument(job.name, q.name, job.pagesPrinted, q.defaultCopies)]
  }

  /** Every observation of a job is at or below the merged page count. */
  ghost predicate CoversObservations(jobs: seq<JobInfo>, r: Table) {
    forall k, i :: k in r && 0 <= i < |jobs| && jobs[i].id == k ==> r[k].pages >= jobs[i].pagesPrinted
  }

  /** Every merged page count is one that was there before (0 for a new
      document) or one that was observed. */
  ghost predicate PagesFromInputs(t: Table, jobs: seq<JobInfo>, r: Table) {
    forall k {:trigger r[k]} :: k in r ==>
      (k in t && r[k].pages == t[k].pages)
      || (k !in t && r[k].pages == 0)
      || (exists i :: 0 <= i < |jobs| && jobs[i].id == k && r[k].pages == jobs[i].pagesPrinted)
  }

  /** Every new document carries the queue's name and default copy count,
      the name reported with the first sighting of its id, and a page count
      of at least 0 (the field it was created with). */
  ghost predicate NewEntriesFrom(t: Table, q: Queue, jobs: seq<JobInfo>, r: Table) {
    forall k {:trigger r[k]} :: k in r && k !in t ==>
      r[k].printerName == q.name && r[k].copyCount == q.defaultCopies && r[k].pages >= 0
      && exists i :: FirstOccurrence(jobs, i, k) && r[k].name == jobs[i].name
  }

  /** Entries whose id is not reported are left exactly as they were. */
  ghost predicate UnreportedUnchanged(t: Table, jobs: seq<JobInfo>, r: Table) {
    forall k {:trigger t[k]} :: k in t && k !in JobIds(jobs) ==> k in r && r[k] == t[k]
  }

  /** The whole inner loop of `UpdateData` over one queue's jobs, in order:
      exactly the reported ids are added and no entry loses its identity or
      any pages. `MergeJobsSpec` says what each entry ends up holding. */
  function MergeJobs(t: Table, q: Queue, jobs: seq<JobInfo>): (r: Table)
    ensures r.Keys == t.Keys + JobIds(jobs)
    ensures Extends(t, r)
    ensures UnreportedUnchanged(t, jobs, r)
    ensures ValidTable(t) ==> ValidTable(r)
    decreases |jobs|
  {
    if |jobs| == 0 then t
    else
      var t1 := Upsert(t, q, jobs[0]);
      var r := MergeJobs(t1, q, jobs[1..]);
      StepFrame(t, q, jobs, t1, r);
      r
  }

  /** Each merged page count is the maximum of the stored count (0 for a new
      document) and every count observed for that id; each new document takes
      its name from the first report of its id, and its printer and copy count
      from the queue. */
  lemma {:induction false} MergeJobsSpec(t: Table, q: Queue, jobs: seq<JobInfo>)
    ensures CoversObservations(jobs, MergeJobs(t, q, jobs))
    ensures PagesFromInputs(t, jobs, MergeJobs(t, q, jobs))
    ensures NewEntriesFrom(t, q, jobs, MergeJobs(t, q, jobs))
    decreases |jobs|
  {
    if |jobs| > 0 {
      var t1 := Upsert(t, q, jobs[0]);
      var r := MergeJobs(t1, q, jobs[1..]);
      MergeJobsSpec(t1, q, jobs[1..]);
      StepCovers(t, q, jobs, t1, r);
      StepPagesFromInputs(t, q, jobs, t1, r);
      StepNewEntries(t, q, jobs, t1, r);
    }
  }

  /** Merging the same report twice is merging it once: a repeated
      observation changes nothing. */
  lemma MergeJobsIdempotent(t: Table, q: Queue, jobs: seq<JobInfo>)
    ensures MergeJobs(MergeJobs(t, q, jobs), q, jobs) == MergeJobs(t, q, jobs)
  {
    var r1 := MergeJobs(t, q, jobs);
    var r2 := MergeJobs(r1, q, jobs);
    MergeJobsSpec(t, q, jobs);
    MergeJobsSpec(r1, q, jobs);
    forall k | k in r1
      ensures r2[k] == r1[k]
    {
      assert r2[k].pages == r1[k].pages;
    }
  }

  lemma JobIdsCons(jobs: seq<JobInfo>)
    requires |jobs| > 0
    ensures JobIds(jobs) == {jobs[0].id} + JobIds(jobs[1..])
  {
    assert jobs == [jobs[0]] + jobs[1..];
  }

  lemma StepFrame(t: Table, q: Queue, jobs: seq<JobInfo>, t1: Table, r: Table)
    requires |jobs| > 0
    requires t1 == Upsert(t, q, jobs[0])
    requires r.Keys == t1.Keys + JobIds(jobs[1..])
    requires Extends(t1, r)
    requires UnreportedUnchanged(t1, jobs[1..], r)
    requires ValidTable(t1) ==> ValidTable(r)
    ensures r.Keys == t.Keys + JobIds(jobs)
    ensures Extends(t, r)
    ensures UnreportedUnchanged(t, jobs, r)
    ensures ValidTable(t) ==> ValidTable(r)
  {
    JobIdsCons(jobs);
    UnionAssoc(t.Keys, {jobs[0].id}, JobIds(jobs[1..]), t1.Keys, r.Keys);
    assert Extends(t, t1);
    ExtendsTransitive(t, t1, r);
  }

  lemma UnionAssoc(a: set<int>, b: set<int>, c: set<int>, d: set<int>, e: set<int>)
    requires d == a + b && e == d + c
    ensures e == a + (b + c)
  {
  }

  lemma ExtendsTransitive(a: Table, b: Table, c: Table)
    requires Extends(a, b) && Extends(b, c)
    ensures Extends(a, c)
  {
  }

  lemma StepCovers(t: Table, q: Queue, jobs: seq<JobInfo>, t1: Table, r: Table)
    requires |jobs| > 0
    requires t1 == Upsert(t, q, jobs[0])
    requires Extends(t1, r)
    requires CoversObservations(jobs[1..], r)
    ensures CoversObservations(jobs, r)
  {
    var rest := jobs[1..];
    forall k, i | k in r && 0 <= i < |jobs| && jobs[i].id == k
      ensures r[k].pages >= jobs[i].pagesPrinted
    {
      if i == 0 {
        assert t1[k].pages >= jobs[0].pagesPrinted;
      } else {
        assert rest[i - 1] == jobs[i];
      }
    }
  }

  lemma StepPagesFromInputs(t: Table, q: Queue, jobs: seq<JobInfo>, t1: Table, r: Table)
    requires |jobs| > 0
    requires t1 == Upsert(t, q, jobs[0])
    requires PagesFromInputs(t1, jobs[1..], r)
    ensures PagesFromInputs(t, jobs, r)
  {
    var j0 := jobs[0];
    var rest := jobs[1..];
    forall k | k in r
      ensures (k in t && r[k].pages == t[k].pages)
              || (k !in t && r[k].pages == 0)
              || (exists i :: 0 <= i < |jobs| && jobs[i].id == k && r[k].pages == jobs[i].pagesPrinted)
    {
      if k in t1 && r[k].pages == t1[k].pages {
        if k != j0.id {
          assert t1[k] == t[k];
        } else if k in t && t1[k].pages == t[k].pages {
        } else if k !in t && t1[k].pages == 0 {
        } else {
          assert jobs[0].id == k && r[k].pages == jobs[0].pagesPrinted;
        }
      } else if k !in t1 && r[k].pages == 0 {
        assert k !in t;
      } else {
        var i :| 0 <= i < |rest| && rest[i].id == k && r[k].pages == rest[i].pagesPrinted;
        assert jobs[i + 1] == rest[i];
      }
    }
  }

  lemma StepNewEntries(t: Table, q: Queue, jobs: seq<JobInfo>, t1: Table, r: Table)
    requires |jobs| > 0
    requires t1 == Upsert(t, q, jobs[0])
    requires Extends(t1, r)
    requires NewEntriesFrom(t1, q, jobs[1..], r)
    ensures NewEntriesFrom(t, q, jobs, r)
  {
    var j0 := jobs[0];
    var rest := jobs[1..];
    forall k | k in r && k !in t
      ensures r[k].printerName == q.name && r[k].copyCount == q.defaultCopies && r[k].pages >= 0
              && exists i :: FirstOccurrence(jobs, i, k) && r[k].name == jobs[i].name
    {
      if k == j0.id {
        assert SameIdentity(r[k], t1[k]);
        assert FirstOccurrence(jobs, 0, k);
      } else {
        assert k !in t1;
        var i :| FirstOccurrence(rest, i, k) && r[k].name == rest[i].name;
        assert jobs[i + 1] == rest[i];
        assert FirstOccurrence(jobs, i + 1, k);
      }
    }
  }

  /** `Dictionary.Clear`: every entry goes. */
  function Clear(t: Table): (r: Table)
    ensures |r| == 0
    ensures ValidTable(r)
  {
    map[]
  }
}

=== FILE: monitor.dfy ===
/**
 The polling loop of the print monitor, one iteration at a time: if the spool
 directory holds files every queue with jobs is merged into the table and the
 table is rendered after each such queue; otherwise the table is cleared.
 The print service is replaced by a snapshot of what it would report.
 */
module Monitor {

  import opened JobTable

  /** What one iteration observes: the number of files in the spool directory
      and, in enumeration order, the local print queues. */
  datatype Snapshot = Snapshot(spoolFileCount: nat, queues: seq<Queue>)

  /** The table after `UpdateData`, and the table as it stood at each call of
      `PrintData`, in call order. */
  datatype Update = Update(table: Table, frames: seq<Table>)

  /** Queues `UpdateData` processes: those whose job count is not 0, in
      order. */
  function ActiveQueues(queues: seq<Queue>): (r: seq<Queue>)
    ensures |r| <= |queues|
    ensures forall i :: 0 <= i < |r| ==> r[i].jobCount != 0
    decreases |queues|
  {
    if |queues| == 0 then []
    else
      var a := ActiveQueues(queues[..|queues| - 1]);
      var q := queues[|queues| - 1];
      if q.jobCount == 0 then a else a + [q]
  }

  /** `ActiveQueues` keeps exactly the queues whose job count is not 0: each
      kept queue comes from the input, and none of the others is dropped. */
  lemma {:induction false} ActiveQueuesExact(queues: seq<Queue>)
    ensures forall q :: q in ActiveQueues(queues) <==> q in queues && q.jobCount != 0
    decreases |queues|
  {
    if |queues| > 0 {
      var init := queues[..|queues| - 1];
      ActiveQueuesExact(init);
      assert queues == init + [queues[|queues| - 1]];
    }
  }

  /** Ids reported by the queues `UpdateData` processes. */
  function ActiveJobIds(queues: seq<Queue>): set<int>
    decreases |queues|
  {
    if |queues| == 0 then {}
    else
      var q := queues[|queues| - 1];
      ActiveJobIds(queues[..|queues| - 1]) + (if q.jobCount == 0 then {} else JobIds(q.jobs))
  }

  lemma ConcatAssoc<T>(a: seq<T>, b: seq<T>, c: seq<T>)
    ensures a + (b + c) == (a + b) + c
  {
  }

  /** `UpdateData`: for each queue in order, skip it when its job count is 0,
      otherwise merge all its jobs into the table and then render the whole
      table. One render per processed queue, the last showing the final
      table. */
  function UpdateData(t: Table, queues: seq<Queue>): (r: Update)
    ensures |r.frames| == |ActiveQueues(queues)|
    ensures |r.frames| == 0 ==> r.table == t
    decreases |queues|
  {
    if |queues| == 0 then Update(t, [])
    else
      var u := UpdateData(t, queues[..|queues| - 1]);
      var q := queues[|queues| - 1];
      if q.jobCount == 0 then u
      else
        var merged := MergeJobs(u.table, q, q.jobs);
        Update(merged, u.frames + [merged])
  }

  /** The last render of `UpdateData` shows the table it returns. */
  lemma {:induction false} UpdateDataLastFrame(t: Table, queues: seq<Queue>)
    ensures var r := UpdateData(t, queues);
            |r.frames| > 0 ==> r.frames[|r.frames| - 1] == r.table
    decreases |queues|
  {
    if |queues| > 0 {
      var init := queues[..|queues| - 1];
      UpdateDataLastFrame(t, init);
      var q := queues[|queues| - 1];
      var u := UpdateData(t, init);
      if q.jobCount != 0 {
        var merged := MergeJobs(u.table, q, q.jobs);
        assert UpdateData(t, queues) == Update(merged, u.frames + [merged]);
        LastOfSnoc(u.frames, merged);
      } else {
        assert UpdateData(t, queues) == u;
      }
    }
  }

  lemma LastOfSnoc<T>(s: seq<T>, x: T)
    ensures (s + [x])[|s|] == x
  {
  }

  /** `UpdateData` adds exactly the ids reported by the queues it processes. */
  lemma {:induction false} UpdateDataKeys(t: Table, queues: seq<Queue>)
    ensures UpdateData(t, queues).table.Keys == t.Keys + ActiveJobIds(queues)
    decreases |queues|
  {
    if |queues| > 0 {
      var init := queues[..|queues| - 1];
      UpdateDataKeys(t, init);
      var q := queues[|queues| - 1];
      if q.jobCount != 0 {
        var u := UpdateData(t, init);
        UnionAssoc(t.Keys, ActiveJobIds(init), JobIds(q.jobs), u.table.Keys, MergeJobs(u.table, q, q.jobs).Keys);
      }
    }
  }

  /** `UpdateData` keeps every entry it had, with its identity, never lowering
      a page count, and keeps every page count non-negative. */
  lemma {:induction false} UpdateDataGrows(t: Table, queues: seq<Queue>)
    ensures Extends(t, UpdateData(t, queues).table)
    ensures ValidTable(t) ==> ValidTable(UpdateData(t, queues).table)
    decreases |queues|
  {
    if |queues| > 0 {
      var init := queues[..|queues| - 1];
      UpdateDataGrows(t, init);
      var q := queues[|queues| - 1];
      if q.jobCount != 0 {
        var u := UpdateData(t, init);
        ExtendsTransitive(t, u.table, MergeJobs(u.table, q, q.jobs));
      }
    }
  }

  /** Successive tables each extend the one before, the first extending `t`. */
  ghost predicate Chain(t: Table, frames: seq<Table>) {
    && (|frames| > 0 ==> Extends(t, frames[0]))
    && forall i :: 0 < i < |frames| ==> Extends(frames[i - 1], frames[i])
  }

  /** Each render shows a table that extends the one shown by the render
      before it (the first, the table `UpdateData` started from). */
  lemma {:induction false} UpdateDataFramesGrow(t: Table, queues: seq<Queue>)
    ensures Chain(t, UpdateData(t, queues).frames)
    decreases |queues|
  {
    if |queues| > 0 {
      var init := queues[..|queues| - 1];
      var q := queues[|queues| - 1];
      var u := UpdateData(t, init);
      UpdateDataFramesGrow(t, init);
      UpdateDataLastFrame(t, init);
      if q.jobCount != 0 {
        var merged := MergeJobs(u.table, q, q.jobs);
        ChainSnoc(t, u.frames, merged);
      }
    }
  }

  lemma ChainSnoc(t: Table, frames: seq<Table>, next: Table)
    requires Chain(t, frames)
    requires Extends(if |frames| == 0 then t else frames[|frames| - 1], next)
    ensures Chain(t, frames + [next])
  {
    var all := frames + [next];
    forall i | 0 < i < |all|
      ensures Extends(all[i - 1], all[i])
    {
      if i < |frames| {
        assert all[i - 1] == frames[i - 1] && all[i] == frames[i];
      } else {
        assert all[i - 1] == frames[|frames| - 1] && all[i] == next;
      }
    }
  }

  /** Processing the queues in two consecutive batches is processing them in
      one go: the second batch starts from the table the first left, and the
      renders of both follow one another. */
  lemma {:induction false} UpdateDataAppend(t: Table, a: seq<Queue>, b: seq<Queue>)
    ensures var u := UpdateData(t, a);
            var v := UpdateData(u.table, b);
            UpdateData(t, a + b) == Update(v.table, u.frames + v.frames)
    decreases |b|
  {
    var u := UpdateData(t, a);
    if |b| == 0 {
      assert a + b == a;
      assert u.frames + [] == u.frames;
    } else {
      var init := b[..|b| - 1];
      var q := b[|b| - 1];
      assert (a + b)[..|a + b| - 1] == a + init;
      assert (a + b)[|a + b| - 1] == q;
      UpdateDataAppend(t, a, init);
      var v := UpdateData(u.table, init);
      if q.jobCount != 0 {
        var merged := MergeJobs(v.table, q, q.jobs);
        ConcatAssoc(u.frames, v.frames, [merged]);
      }
    }
  }

  /** A queue whose job count is 0 changes nothing and renders nothing,
      wherever it stands among the queues. */
  lemma IdleQueueIgnored(t: Table, a: seq<Queue>, q: Queue, b: seq<Queue>)
    requires q.jobCount == 0
    ensures UpdateData(t, a + [q] + b) == UpdateData(t, a + b)
  {
    UpdateDataAppend(t, a + [q], b);
    UpdateDataAppend(t, a, b);
    assert (a + [q])[..|a + [q]| - 1] == a;
  }

  /** The body of the polling loop: with files in the spool directory, run
      `UpdateData`; otherwise clear the table and render nothing. */
  function Tick(t: Table, s: Snapshot): (r: Update)
    ensures s.spoolFileCount == 0 ==> |r.table| == 0 && r.frames == []
    ensures s.spoolFileCount > 0 ==> |r.frames| == |ActiveQueues(s.queues)|
    ensures |r.frames| > 0 ==> r.frames[|r.frames| - 1] == r.table
  {
    if s.spoolFileCount > 0 then
      UpdateDataLastFrame(t, s.queues);
      UpdateData(t, s.queues)
    else Update(Clear(t), [])
  }

  /** A busy iteration adds exactly the ids reported by queues with a
      non-zero job count and otherwise only raises page counts; every
      iteration keeps page counts non-negative. */
  lemma TickGrows(t: Table, s: Snapshot)
    ensures s.spoolFileCount > 0 ==> Tick(t, s).table.Keys == t.Keys + ActiveJobIds(s.queues)
    ensures s.spoolFileCount > 0 ==> Extends(t, Tick(t, s).table)
    ensures ValidTable(t) ==> ValidTable(Tick(t, s).table)
  {
    UpdateDataKeys(t, s.queues);
    UpdateDataGrows(t, s.queues);
  }

  /** The table after a finite run of iterations. */
  function Run(t: Table, snaps: seq<Snapshot>): (r: Table)
    ensures ValidTable(t) ==> ValidTable(r)
    ensures |snaps| > 0 && snaps[|snaps| - 1].spoolFileCount == 0 ==> |r| == 0
    decreases |snaps|
  {
    if |snaps| == 0 then t
    else
      TickGrows(t, snaps[0]);
      var r := Run(Tick(t, snaps[0]).table, snaps[1..]);
      assert |snaps[1..]| > 0 ==> snaps[1..][|snaps[1..]| - 1] == snaps[|snaps| - 1];
      r
  }

  predicate AllBusy(snaps: seq<Snapshot>) {
    forall i :: 0 <= i < |snaps| ==> snaps[i].spoolFileCount > 0
  }

  lemma {:induction false} RunAppend(t: Table, a: seq<Snapshot>, b: seq<Snapshot>)
    ensures Run(t, a + b) == Run(Run(t, a), b)
    decreases |a|
  {
    if |a| == 0 {
      assert a + b == b;
    } else {
      assert (a + b)[0] == a[0];
      assert (a + b)[1..] == a[1..] + b;
      RunAppend(Tick(t, a[0]).table, a[1..], b);
    }
  }

  lemma {:induction false} RunBusyExtends(t: Table, snaps: seq<Snapshot>)
    requires AllBusy(snaps)
    ensures Extends(t, Run(t, snaps))
    decreases |snaps|
  {
    if |snaps| == 0 {
    } else {
      var t1 := Tick(t, snaps[0]).table;
      TickGrows(t, snaps[0]);
      RunBusyExtends(t1, snaps[1..]);
      ExtendsTransitive(t, t1, Run(t, snaps));
    }
  }

  /** Monotonicity within a session: once the iterations `earlier` have run,
      further iterations that all find the spool directory non-empty never
      drop a job, never change its name, printer or copy count, and never
      lower its page count, whatever the print service reports. */
  lemma SessionMonotonic(t: Table, earlier: seq<Snapshot>, later: seq<Snapshot>)
    requires AllBusy(later)
    ensures Extends(Run(t, earlier), Run(t, earlier + later))
  {
    RunAppend(t, earlier, later);
    RunBusyExtends(Run(t, earlier), later);
  }

  /** An idle iteration ends the session: whatever was tracked is gone, and
      an idle iteration on an empty table changes nothing. */
  lemma IdleClears(t: Table, s: Snapshot)
    requires s.spoolFileCount == 0
    ensures Tick(t, s).table == map[]
    ensures Tick(Tick(t, s).table, s) == Tick(t, s)
  {
  }
}

=== FILE: scenarios.dfy ===
/**
 Worked examples of the monitor's behaviour on small concrete inputs.
 */
module Scenarios {

  import opened Decimal
  import opened Documents
  import opened JobTable
  import opened Monitor

  const Printer := Queue("HP-LaserJet", 3, 1, [])

  /** A first sighting creates the document with the queue's copy count. */
  lemma FirstSighting()
    ensures Upsert(map[], Printer, JobInfo(1, "Report.pdf", 0)) == map[1 := Document("Report.pdf", "HP-LaserJet", 0, 3)]
  {
  }

  /** Its block shows one page more than it has printed. */
  lemma FirstSightingShown()
    ensures DocumentLines(Document("Report.pdf", "HP-LaserJet", 0, 3))[1]
            == "Name: " + "Report.pdf" + "\tNumber of Pages: " + "1" + "\tCopies: " + "3"
  {
    assert IntToString(1) == "1" by { assert DigitChar(1) == '1'; }
    assert IntToString(3) == "3" by { assert DigitChar(3) == '3'; }
  }

  /** Progress is merged upward, and a stale report is ignored. */
  lemma ProgressThenStaleReport()
    ensures var t0 := map[1 := Document("Report.pdf", "HP-LaserJet", 0, 3)];
            var t1 := Upsert(t0, Printer, JobInfo(1, "Report.pdf", 5));
            var t2 := Upsert(t1, Printer, JobInfo(1, "Report.pdf", 2));
            t1[1].pages == 5 && t2 == t1
  {
  }

  /** A negative report for a new job is stored as 0, not as reported. */
  lemma NegativeFirstReport()
    ensures Upsert(map[], Printer, JobInfo(7, "x", -4))[7].pages == 0
  {
  }

  /** An idle spool directory empties the table. */
  lemma IdleSpoolClears()
    ensures var t := map[1 := Document("a", "P", 2, 1), 2 := Document("b", "P", 0, 1)];
            Tick(t, Snapshot(0, [Printer])) == Update(map[], [])
  {
  }

  /** Two queues with one job each: the first render shows only the first
      queue's job, the second shows both. */
  lemma TwoQueuesRenderProgressively()
    ensures var q1 := Queue("P1", 1, 1, [JobInfo(1, "a", 0)]);
            var q2 := Queue("P2", 2, 1, [JobInfo(2, "b", 0)]);
            var r := Tick(map[], Snapshot(1, [q1, q2]));
            |r.frames| == 2 && r.frames[0].Keys == {1} && r.frames[1].Keys == {1, 2}
  {
    var q1 := Queue("P1", 1, 1, [JobInfo(1, "a", 0)]);
    var q2 := Queue("P2", 2, 1, [JobInfo(2, "b", 0)]);
    assert [q1, q2][..1] == [q1];
    assert [q1][..0] == [];
    assert [JobInfo(1, "a", 0)][1..] == [];
    assert [JobInfo(2, "b", 0)][1..] == [];
  }
}
